=== FILE: README.md ===
# storefront_v2 store core, in Dafny

This project models the state-changing core of the storefront_v2 e-commerce backend (Django + REST framework) as pure functions over an immutable snapshot of the database. It also proves properties of those functions.

The snapshot (`Entities.Store`) holds these tables:

- users, each with a phone number and an `is_staff` flag;
- Customer rows, keyed by their one-to-one user;
- carts: each has an optional customer and its cart-item lines;
- products;
- orders;
- favorite items, as a multiset, because the table has no unique constraint;
- reviews, keyed by (customer, product);
- customer images;
- product image lists.

The anonymous or logged-in requester is `Entities.Requester`. The session's `cart_id` is `Entities.Session`. `Database.Valid` states the schema's integrity constraints: foreign keys, the one-to-one Customer link, and one cart line per product.

The modules follow the source files:

- `CartLines`: cart lines, per-product quantities, and the login-time merge loop.
- `Database`: the integrity constraints, plus the ORM's `.first()`. On an unordered queryset `.first()` orders by primary key, so it returns the smallest key.
- `Signals`: the post-save hook that creates Customers, and the login cart merge (store/signals/handlers.py). store/signals.py holds a copy of the Customer hook that is identical line for line. `CreateCustomerOnSave` models both copies.
- `Tasks`: the empty-cart reaper and the price bump.
- `Permissions` and `Views`: the permission tables, the product cache timeouts, order scoping and cart-item lookup.
  - Permissions are evaluated the way the REST framework does it. Every class's view-level check must pass. On routes that fetch an object, every class's object-level check must pass too.
  - `IsOwnerOrAdmin` overrides only the object-level check. So the order list, guarded by `IsOwnerOrAdmin` alone, admits every requester at view level. The scoping happens in `Views.OrderQueryset`.
- `Serializers`: favorite toggling, review upsert, customer-image upsert, and product create/update with images.
- `Phone`: phone-number validation. The phonenumbers library is a parameter of three uninterpreted operations.

I/O, the clock and the network do not appear. Primary keys that the database assigns are parameters, with a freshness precondition.

## Model

| member | source | states |
|---|---|---|
| CartLines.FindLine | store/signals/handlers.py:32 | returns the first line for the product. None means no line has that product. |
| CartLines.AddLine | store/signals/handlers.py:32-38 | adds the item's quantity to this product and changes no other product. If the product already had a line, that line is incremented in place and the cart gets no new line. Otherwise the item is appended unchanged. A cart with one line per product keeps that property. |
| CartLines.MergeLines | store/signals/handlers.py:30-38 | each product's merged quantity is the customer quantity plus the session quantity. There is no inventory check. The merged products are the union of both carts' products. One line per product is preserved. The customer cart's existing lines keep their positions. |
| CartLines.ExistingLineIncremented | store/signals/handlers.py:32-35 | a product already in the customer cart keeps its single line. Its quantity grows by the session cart's quantity. |
| CartLines.SessionOnlyLineMoved | store/signals/handlers.py:36-38 | a product found only in the session cart arrives in the merged cart with its quantity unchanged. |
| Database.LeastElement | store/views.py:206 | every non-empty set of primary keys has a least element. `.first()` relies on this. |
| Database.FirstCart | store/views.py:205-206 | `Cart.objects.filter(customer=owner).first()` is the smallest-key cart with that customer column. It is None exactly when no cart has that column value. |
| Database.SessionCart | store/signals/handlers.py:26 | the session's cart is found exactly when the session holds a `cart_id` and that cart exists. |
| Signals.CreateCustomerOnSave | store/signals/handlers.py:10-15 | a Customer is inserted only when `created` is true and the user is not staff. Staff users and saves with `created` false change nothing. At most one Customer is added per save event. It gets key `pk` and is linked to the saved user. A second Customer for the same user is an integrity error. |
| Signals.CreateCustomerPreservesValid | store/signals.py:9-14 | inserting the Customer keeps every integrity constraint, including one Customer per user. |
| Signals.LoginAsWritten | store/signals/handlers.py:18-49 | login fails with no change when the user has no Customer. Otherwise the session's `cart_id` is always gone afterwards. With no session cart, the store is unchanged. With both carts, the customer cart's quantities are summed with the session cart's and the session cart is deleted; other carts are untouched. With only a session cart, that cart is rebound to the customer and its lines are unchanged. |
| Signals.LoginAsWrittenDeletesOwnCart | store/signals/handlers.py:28-40 | when the session still names the customer's own cart, the hook as written deletes that cart. |
| Signals.Login | store/signals/handlers.py:18-49 | a user without a Customer gets `DoesNotExist`, as in the as-written hook. The corrected hook agrees with the as-written one in every case except one: the customer has a cart and the session names it. In that case the store is unchanged and only the session's `cart_id` is cleared. The customer's cart always survives login. None of its per-product quantities decreases. |
| Signals.LoginAsWrittenPreservesValid | store/signals/handlers.py:28-45 | the login hook as written keeps every integrity constraint, even when it deletes the customer's own cart. |
| Signals.LoginPreservesValid | store/signals/handlers.py:28-45 | login keeps every integrity constraint. In particular, the merge never creates two lines for one product. |
| Tasks.DeleteEmptyCarts | store/tasks.py:12-16 | every cart without items is deleted. Carts with items are kept unchanged, and every surviving cart is one of them. Nothing outside the cart table changes. |
| Tasks.DeleteEmptyCartsIdempotent | store/tasks.py:14-16 | reaping twice gives the same store as reaping once. |
| Tasks.UpdateProductsPrices | store/tasks.py:6-8 | every product's price goes up by exactly 1, and the other fields stay the same. The relative order of prices is preserved. |
| Permissions.OwnerOrAdmin | store/permissions.py:6-7 | staff are always granted. The owner is granted whether or not they are staff. Any other requester, the anonymous user included, is denied. The decision is a function of `is_staff` and `obj.user == request.user` alone. |
| Views.CustomerAccess | store/views.py:57-63 | list needs an authenticated staff user. On retrieve/update/partial_update/destroy the fetched Customer needs a staff requester or its owner. Any other action needs authentication. |
| Views.ProductAccess | store/views.py:103-108 | product writes are staff-only. `favorite` needs authentication. Everything else is open. No decision looks at the object. |
| Views.CacheTimeout | store/views.py:91-100 | the method returns 0 exactly for `favorite`, 300 for list, 3600 for retrieve and 900 otherwise. Whether the caching mixin consults it is framework behaviour and is left out. |
| Views.OrderAccess | store/views.py:235-242 | an OPTIONS request is allowed before any action check. create_order and options need authentication. The list route passes every requester, because `IsOwnerOrAdmin` has no view-level check. Any other action is staff-only. |
| Views.OrderQueryset | store/views.py:245-254 | staff see every order. Anyone else sees exactly the orders of their own Customer. A requester without a Customer, the anonymous user included, gets `DoesNotExist`. |
| Views.ResolveCartAsWritten | store/views.py:200-211 | an authenticated user with a Customer gets that Customer's cart with the smallest key. An anonymous request gets the session's `cart_id` cart if it exists. An authenticated user without a Customer gets the smallest-key cart with no customer. |
| Views.CustomerlessUserGetsAnonymousCart | store/views.py:205-206 | a logged-in user without a Customer is shown an anonymous cart whenever one exists. |
| Views.ResolveCart | store/views.py:200-211 | the corrected lookup only resolves to a cart the requester owns. It agrees with the as-written lookup whenever a Customer exists or the request is anonymous. |
| Views.ListCartItems | store/views.py:200-216 | an authenticated user is listed the lines of the smallest-key cart whose customer column is their Customer, or is NULL when they have no Customer. An anonymous request is listed the session cart's lines. The list is empty when no such cart exists. |
| Views.ListOwnCartItems | store/views.py:200-216 | the corrected listing is empty for a logged-in user without a Customer. A non-empty listing for a logged-in user is the lines of one of their own carts. Every other requester gets the as-written listing. |
| Serializers.ToggleFavorite | store/serializers.py:224-240 | an existing (user, Product, id) favorite is removed and None is returned. Otherwise one is created and returned. No other user's or product's favorites change. |
| Serializers.ToggleFavoriteTwice | store/serializers.py:230-238 | toggling twice restores the store when the favorite was not duplicated. |
| Serializers.ToggleFavoriteKeepsAtMostOne | store/serializers.py:230-240 | toggling never duplicates a favorite row that was not already duplicated. |
| Serializers.UpsertReview | store/serializers.py:190-214 | a missing product raises first, then a missing Customer. Otherwise the (customer, product) review is upserted; the model keys the review table by that pair. The rate is overwritten. A missing description keeps the old one on update and is "" on creation. |
| Serializers.UpsertCustomerImage | store/serializers.py:30-37 | a customer has at most one image, and creating one overwrites the existing image. Other customers' images are untouched. A missing customer without an image row is an integrity error. |
| Serializers.ApplyPatch | store/serializers.py:179 | each given field replaces the product's value. Fields that are not given are kept. |
| Serializers.CreateProduct | store/serializers.py:162-171 | the new product gets exactly one image per uploaded file, in upload order. Other products are untouched. |
| Serializers.ReplaceImagesKeepsLast | store/serializers.py:174-177 | `Serializers.ReplaceImages` models the delete-then-create loop. This lemma shows that after the loop only the last upload remains. With no uploads the images are unchanged. |
| Serializers.ImagesAfterUpdate | store/serializers.py:174-177 | a non-empty upload list leaves the product with exactly its last upload. An empty list leaves all images unchanged. |
| Serializers.UpdateProduct | store/serializers.py:173-179 | the product's fields are patched, and other products keep their rows. The image table changes only at this product: its images become exactly the last upload. When nothing was uploaded the image table is unchanged. |
| Phone.CheckPhoneNumber | core/serializers.py:10-18 | a parse failure gives "Invalid phone number format.". A number that parses but is invalid gives "Invalid phone number.", not the format error. On success the result is the E.164 form of the number parsed with default region EG. |
| Phone.ValidateNewPhoneNumberAsWritten | core/serializers.py:64-70 | a raw value already held by a different user is rejected. The requester's own number is no conflict. Otherwise the normalised number is returned, so uniqueness is checked before normalisation. |
| Phone.RawCheckAdmitsTakenNumber | core/serializers.py:66-70 | a national spelling of another user's international number passes the raw check. The normalised value it returns is already held by that other user. |
| Phone.ValidateNewPhoneNumber | core/serializers.py:64-70 | the corrected check returns a number only when no other user holds that normalised number. A valid number that no other user holds is accepted, normalised. A conflict gives "This phone number is already used.". A format or validity error is passed on unchanged. |
| Phone.NormalisedCheckRejectsTakenNumber | core/serializers.py:66-70 | the corrected check rejects the request that the raw check admits. |

## Left out

- Checkout, order creation, add-to-cart and its inventory ceiling are left out. Their serializers, the Cart/CartItem/Order/Product models, `IsCartItemOwnerOrAdmin` and the pagination class are imported by store/views.py but are not part of this model.
- The internals of the phonenumbers library are left out. Parsing, validity and E.164 formatting are uninterpreted fields of `Phone.PhoneLibrary`.
- Framework machinery is left out: the ORM, response caching, Redis (`test_redis`), SQL debug printing, `print` calls, URL building for images, and the `setattr` plumbing of `UpdateCustomerSerializer`.
- The `order_create` receiver only prints, so it is left out.
- The permission lists of the cart, cart-item, review and product-image view sets are outside the modelled core.
- The login merge is a direct function call rather than a signal. Only the `cart_id` session key is modelled.
- Session ids are taken as present or absent. The source's truthiness test would also treat a stored `0` or `""` as absent; database keys never take those values.
- The order of a cart's lines is the model's own convention: existing lines keep their place and a line moved in at login is appended. In the source a moved CartItem keeps its own key, so in key order it may sort before existing lines. The order is not observable when a cart has one line per product.
- Primary keys are compared by value only. `.first()` picks the smallest key, which assumes the Cart model declares no default `Meta.ordering`; the Cart model is not part of this model. Whether key order is creation order is not modelled.
- Line quantities are naturals. The CartItem model is not part of this model, so no positivity bound is imposed.
- Prices are integers in whole units, not decimals.
- Concurrency between requests is left out, including duplicate anonymous carts and races.
- Database-assigned keys are parameters with a freshness precondition.
- Serializers.ToggleFavorite: product existence is checked by the view's `get_object` before the serializer runs, so it is not modelled here.
- Serializers.UpdateProduct: requires the product to exist, because the view's `get_object` answers 404 before the serializer runs.

## Findings

| source | as written | input that shows it | evidently intended | confidence | as-written member | corrected member |
|---|---|---|---|---|---|---|
| store/signals/handlers.py:28-40 | If the session's `cart_id` is the customer's own cart, both lookups return that cart. The loop doubles each line, and line 40 then deletes the cart. | a session whose `cart_id` is the logging-in customer's smallest-key cart | keep the customer's cart and only clear the session key | low, not executed; whether a logged-in session can still hold its own cart's id depends on code outside this model | Signals.LoginAsWritten, Signals.LoginAsWrittenDeletesOwnCart | Signals.Login |
| store/views.py:205-206 | For a user without a Customer, `filter(customer=None)` matches carts whose customer IS NULL. Such a user (e.g. staff) is shown a stranger's anonymous cart. | a staff user lists cart items while any customer-less cart exists | no cart, so an empty listing | medium, not executed | Views.ResolveCartAsWritten, Views.CustomerlessUserGetsAnonymousCart, Views.ListCartItems | Views.ResolveCart, Views.ListOwnCartItems |
| core/serializers.py:66-70 | Uniqueness is checked on the raw input, but the number is then normalised. A national spelling of a number another user holds in E.164 form passes the validator. The save that follows violates the unique `phone_number` column (core/models.py:21) and fails with an integrity error instead of "This phone number is already used.". | user 1 holds "+201001234567"; user 2 submits "01001234567", which parses to the same number | check the normalised number for uniqueness, so the validator reports the conflict | medium, not executed | Phone.ValidateNewPhoneNumberAsWritten, Phone.RawCheckAdmitsTakenNumber | Phone.ValidateNewPhoneNumber |

=== FILE: cart_lines.dfy ===
/**
 * The lines of a cart and the login-time merge of one cart's lines into another's
 * (the loop of store/signals/handlers.py).
 */
module CartLines {
  import opened Wrappers
  import opened Entities

  /** What a single line contributes to the quantity of product p. */
  function Share(l: Line, p: ProductId): nat
  {
    if l.product == p then l.quantity else 0
  }

  /** Total quantity of product p over all lines (duplicated lines included). */
  function Quantity(lines: seq<Line>, p: ProductId): nat
  {
    if |lines| == 0 then 0 else Share(lines[0], p) + Quantity(lines[1..], p)
  }

  /** The products that have at least one line. */
  function Products(lines: seq<Line>): set<ProductId>
  {
    set j | 0 <= j < |lines| :: lines[j].product
  }

  /** No product has two lines (the (cart, product) uniqueness of CartItem). */
  predicate Unique(lines: seq<Line>)
  {
    forall i, j :: 0 <= i < j < |lines| ==> lines[i].product != lines[j].product
  }

  lemma ProductsCons(lines: seq<Line>)
    requires |lines| > 0
    ensures Products(lines) == {lines[0].product} + Products(lines[1..])
  {
    forall p | p in Products(lines) ensures p in {lines[0].product} + Products(lines[1..]) {
      var j :| 0 <= j < |lines| && lines[j].product == p;
      if j > 0 {
        assert lines[1..][j - 1] == lines[j];
      }
    }
    forall p | p in Products(lines[1..]) ensures p in Products(lines) {
      var j :| 0 <= j < |lines[1..]| && lines[1..][j].product == p;
      assert lines[j + 1].product == p;
    }
  }

  lemma {:induction false} QuantityAbsent(lines: seq<Line>, p: ProductId)
    requires p !in Products(lines)
    ensures Quantity(lines, p) == 0
  {
    if |lines| > 0 {
      ProductsCons(lines);
      QuantityAbsent(lines[1..], p);
    }
  }

  lemma {:induction false} QuantityAppend(a: seq<Line>, b: seq<Line>, p: ProductId)
    ensures Quantity(a + b, p) == Quantity(a, p) + Quantity(b, p)
  {
    if |a| == 0 {
      assert a + b == b;
    } else {
      assert (a + b)[1..] == a[1..] + b;
      QuantityAppend(a[1..], b, p);
    }
  }

  lemma {:induction false} QuantityUpdate(lines: seq<Line>, i: nat, l: Line, p: ProductId)
    requires i < |lines|
    ensures Quantity(lines[i := l], p) == Quantity(lines, p) - Share(lines[i], p) + Share(l, p)
  {
    if i == 0 {
      assert lines[i := l][1..] == lines[1..];
    } else {
      assert lines[i := l][1..] == lines[1..][i - 1 := l];
      QuantityUpdate(lines[1..], i - 1, l, p);
    }
  }

  /** In a cart without duplicate lines, a product's quantity is that of its one line. */
  lemma {:induction false} QuantityOfUniqueLine(lines: seq<Line>, j: nat)
    requires Unique(lines) && j < |lines|
    ensures Quantity(lines, lines[j].product) == lines[j].quantity
  {
    var p := lines[j].product;
    if j == 0 {
      forall k | 0 <= k < |lines[1..]| ensures lines[1..][k].product != p {
        assert lines[1..][k] == lines[k + 1];
      }
      QuantityAbsent(lines[1..], p);
    } else {
      assert lines[0].product != p;
      assert lines[1..][j - 1] == lines[j];
      QuantityOfUniqueLine(lines[1..], j - 1);
    }
  }

  /** `cart.cart_items.filter(product=p).first()`: the first line for p, if any. */
  function FindLine(lines: seq<Line>, p: ProductId): (r: Option<nat>)
    ensures r.Some? ==> r.value < |lines| && lines[r.value].product == p
    ensures r.Some? ==> forall j :: 0 <= j < r.value ==> lines[j].product != p
    ensures r.None? <==> p !in Products(lines)
  {
    if |lines| == 0 then None
    else if lines[0].product == p then Some(0)
    else
      ProductsCons(lines);
      match FindLine(lines[1..], p)
      case None => None
      case Some(i) => Some(i + 1)
  }

  /**
   * One turn of the merge loop: an existing line for the item's product is
   * incremented in place; otherwise the item is moved over as a new line.
   */
  function AddLine(lines: seq<Line>, item: Line): (r: seq<Line>)
    ensures forall p :: Quantity(r, p) == Quantity(lines, p) + Share(item, p)
    ensures Products(r) == Products(lines) + {item.product}
    ensures Unique(lines) ==> Unique(r)
    ensures |r| == if item.product in Products(lines) then |lines| else |lines| + 1
    ensures forall j :: 0 <= j < |lines| ==> r[j].product == lines[j].product
    ensures item.product !in Products(lines) ==> r[|lines|] == item
  {
    match FindLine(lines, item.product)
    case Some(i) =>
      var bumped := Line(item.product, lines[i].quantity + item.quantity);
      var r := lines[i := bumped];
      assert forall p :: Quantity(r, p) == Quantity(lines, p) + Share(item, p) by {
        forall p ensures Quantity(r, p) == Quantity(lines, p) + Share(item, p) {
          QuantityUpdate(lines, i, bumped, p);
        }
      }
      assert Products(r) == Products(lines) by {
        forall p | p in Products(lines) ensures p in Products(r) {
          var j :| 0 <= j < |lines| && lines[j].product == p;
          assert r[j].product == p;
        }
      }
      r
    case None =>
      var r := lines + [item];
      assert forall p :: Quantity(r, p) == Quantity(lines, p) + Share(item, p) by {
        forall p ensures Quantity(r, p) == Quantity(lines, p) + Share(item, p) {
          QuantityAppend(lines, [item], p);
          assert [item][1..] == [];
        }
      }
      assert Products(r) == Products(lines) + {item.product} by {
        forall p | p in Products(lines) ensures p in Products(r) {
          var j :| 0 <= j < |lines| && lines[j].product == p;
          assert r[j].product == p;
        }
        assert r[|lines|].product == item.product;
      }
      r
  }

  /**
   * The merge loop of the login hook: every line of the session cart, in order,
   * is added to the customer cart's lines.
   */
  function MergeLines(customer: seq<Line>, session: seq<Line>): (r: seq<Line>)
    decreases |session|
    ensures forall p :: Quantity(r, p) == Quantity(customer, p) + Quantity(session, p)
    ensures Products(r) == Products(customer) + Products(session)
    ensures Unique(customer) ==> Unique(r)
    ensures |customer| <= |r|
    ensures forall j :: 0 <= j < |customer| ==> r[j].product == customer[j].product
  {
    if |session| == 0 then
      assert forall p :: Quantity(session, p) == 0;
      assert Products(session) == {};
      customer
    else
      ProductsCons(session);
      MergeLines(AddLine(customer, session[0]), session[1..])
  }

  /** A product already in the customer cart keeps its line, incremented by the session quantity. */
  lemma {:induction false} ExistingLineIncremented(customer: seq<Line>, session: seq<Line>, k: nat)
    requires Unique(customer) && k < |customer|
    ensures var r := MergeLines(customer, session);
      && r[k].product == customer[k].product
      && r[k].quantity == customer[k].quantity + Quantity(session, customer[k].product)
  {
    var r := MergeLines(customer, session);
    QuantityOfUniqueLine(customer, k);
    QuantityOfUniqueLine(r, k);
  }

  /** A product only in the session cart arrives as the session's line, quantity unchanged. */
  lemma {:induction false} SessionOnlyLineMoved(customer: seq<Line>, session: seq<Line>, j: nat)
    requires Unique(customer) && Unique(session) && j < |session|
    requires session[j].product !in Products(customer)
    ensures session[j] in MergeLines(customer, session)
  {
    var r := MergeLines(customer, session);
    var p := session[j].product;
    assert p in Products(session);
    assert p in Products(r);
    var k :| 0 <= k < |r| && r[k].product == p;
    QuantityAbsent(customer, p);
    QuantityOfUniqueLine(session, j);
    QuantityOfUniqueLine(r, k);
    assert r[k] == session[j];
  }
}

=== FILE: database.dfy ===
/**
 * What the database guarantees about a snapshot (foreign keys, one-to-one and
 * unique constraints) and the ORM lookups the modelled code performs.
 */
module Database {
  import opened Wrappers
  import opened Entities
  import opened CartLines

  /** The primary keys of all Customer rows. */
  function CustomerIds(s: Store): set<CustomerId>
  {
    s.customerOf.Values
  }

  /** A cart whose customer (if any) exists, whose lines reference products, one line per product. */
  ghost predicate CartValid(c: Cart, customers: set<CustomerId>, products: set<ProductId>)
  {
    && (c.customer.Some? ==> c.customer.value in customers)
    && Unique(c.lines)
    && Products(c.lines) <= products
  }

  /** Customer rows belong to existing users, one Customer per user and one user per Customer. */
  ghost predicate CustomersValid(users: map<UserId, User>, customerOf: map<UserId, CustomerId>)
  {
    && customerOf.Keys <= users.Keys
    && forall u, v :: u in customerOf && v in customerOf && u != v ==> customerOf[u] != customerOf[v]
  }

  ghost predicate CartsValid(carts: map<CartId, Cart>, customers: set<CustomerId>, products: set<ProductId>)
  {
    forall id :: id in carts ==> CartValid(carts[id], customers, products)
  }

  ghost predicate ReviewsValid(reviews: map<(CustomerId, ProductId), Review>, customers: set<CustomerId>, products: set<ProductId>)
  {
    forall k :: k in reviews ==> k.0 in customers && k.1 in products
  }

  ghost predicate OrdersValid(orders: map<OrderId, Order>, customers: set<CustomerId>)
  {
    forall o :: o in orders ==> orders[o].customer in customers
  }

  ghost predicate FavoritesValid(favorites: multiset<Favorite>, users: set<UserId>)
  {
    forall f :: f in favorites ==> f.user in users
  }

  /** The integrity constraints of the schema, table by table. */
  ghost predicate Valid(s: Store)
  {
    && CustomersValid(s.users, s.customerOf)
    && CartsValid(s.carts, CustomerIds(s), s.products.Keys)
    && ReviewsValid(s.reviews, CustomerIds(s), s.products.Keys)
    && s.customerImages.Keys <= CustomerIds(s)
    && s.productImages.Keys <= s.products.Keys
    && OrdersValid(s.orders, CustomerIds(s))
    && FavoritesValid(s.favorites, s.users.Keys)
  }

  /** Every non-empty finite set of keys has a least element. */
  lemma {:induction false} LeastElement(ids: set<nat>) returns (m: nat)
    requires ids != {}
    ensures m in ids && forall i :: i in ids ==> m <= i
  {
    var x :| x in ids;
    if ids == {x} {
      m := x;
    } else {
      var rest := ids - {x};
      var least := LeastElement(rest);
      m := if x < least then x else least;
      forall i | i in ids ensures m <= i {
        if i != x {
          assert i in rest;
        }
      }
    }
  }

  lemma MinExists(ids: set<nat>)
    requires ids != {}
    ensures exists m :: m in ids && forall i :: i in ids ==> m <= i
  {
    var m := LeastElement(ids);
  }

  /** The smallest key of a non-empty set of primary keys. */
  function Min(ids: set<nat>): (m: nat)
    requires ids != {}
    ensures m in ids && forall i :: i in ids ==> m <= i
  {
    MinExists(ids);
    var m :| m in ids && forall i :: i in ids ==> m <= i;
    m
  }

  /** The carts whose customer column equals `owner` (None: `customer IS NULL`). */
  function CartsOwnedBy(carts: map<CartId, Cart>, owner: Option<CustomerId>): set<CartId>
  {
    set id | id in carts && carts[id].customer == owner
  }

  /**
   * `Cart.objects.filter(customer=owner).first()`: on an unordered queryset
   * `.first()` orders by primary key, so this is the smallest-key such cart.
   */
  function FirstCart(carts: map<CartId, Cart>, owner: Option<CustomerId>): (r: Option<CartId>)
    ensures r.None? <==> (forall id :: id in carts ==> carts[id].customer != owner)
    ensures r.Some? ==> r.value in carts && carts[r.value].customer == owner
    ensures r.Some? ==> forall id :: id in carts && carts[id].customer == owner ==> r.value <= id
  {
    var ids := CartsOwnedBy(carts, owner);
    assert forall id :: id in carts && carts[id].customer == owner ==> id in ids;
    if ids == {} then None else Some(Min(ids))
  }

  /** `Cart.objects.filter(pk=session.get('cart_id')).first()`. */
  function SessionCart(carts: map<CartId, Cart>, session: Session): (r: Option<CartId>)
    ensures r.Some? <==> session.cartId.Some? && session.cartId.value in carts
    ensures r.Some? ==> r == session.cartId
  {
    match session.cartId
    case Some(id) => if id in carts then Some(id) else None
    case None => None
  }
}

=== FILE: entities.dfy ===
/**
 * The rows of the store's database, as immutable values.
 *
 * Primary keys are naturals. A `Store` value is one snapshot of every table the
 * modelled code reads or writes; each operation maps a snapshot to a new one.
 */
module Entities {
  import opened Wrappers

  type UserId = nat
  type CustomerId = nat
  type CartId = nat
  type ProductId = nat
  type OrderId = nat

  /** An uploaded file, identified by its stored name. */
  type Image = string

  /** The custom user model: phone number is the login name. */
  datatype User = User(phoneNumber: string, isStaff: bool)

  /** One CartItem row: a product and its quantity. */
  datatype Line = Line(product: ProductId, quantity: nat)

  /**
   * A Cart row with its CartItem rows. The order of `lines` is the model's own
   * convention: existing lines keep their place and a line moved in at login is
   * appended. With one line per product the order is not observable.
   */
  datatype Cart = Cart(customer: Option<CustomerId>, lines: seq<Line>)

  /** A Product row; the decimal price is kept in whole units. */
  datatype Product = Product(title: string, description: string, price: int, inventory: int)

  /** The content type a FavoriteItem points at. */
  datatype ContentKind = ProductKind | OtherKind(model: string)

  /** A FavoriteItem row: (user, content type, object id). */
  datatype Favorite = Favorite(user: UserId, kind: ContentKind, objectId: nat)

  datatype Review = Review(rate: int, description: string)

  datatype Order = Order(customer: CustomerId)

  /** The one session key the modelled code reads and writes. */
  datatype Session = Session(cartId: Option<CartId>)

  /** `request.user`: the anonymous user, or a logged-in user with their `is_staff` flag. */
  datatype Requester = Anonymous | Authenticated(user: UserId, isStaff: bool)

  /** Exceptions the modelled code lets escape. */
  datatype Error = CustomerDoesNotExist | ProductDoesNotExist | IntegrityError

  datatype Store = Store(
    users: map<UserId, User>,
    /** Customer rows, keyed by their one-to-one user. */
    customerOf: map<UserId, CustomerId>,
    carts: map<CartId, Cart>,
    products: map<ProductId, Product>,
    orders: map<OrderId, Order>,
    favorites: multiset<Favorite>,
    /** Review rows, keyed by (customer, product). */
    reviews: map<(CustomerId, ProductId), Review>,
    /** CustomerImage rows (one-to-one with Customer). */
    customerImages: map<CustomerId, Image>,
    /** ProductImage rows, grouped by product. */
    productImages: map<ProductId, seq<Image>>)

  /** `request.user.is_staff`; the anonymous user is never staff. */
  predicate IsStaff(req: Requester)
  {
    req.Authenticated? && req.isStaff
  }

  /** `obj.user == request.user`; the anonymous user owns nothing. */
  predicate IsOwner(req: Requester, owner: UserId)
  {
    req.Authenticated? && req.user == owner
  }
}

=== FILE: permissions.dfy ===
/**
 * The permission classes the view sets combine, with the evaluation rule of the
 * REST framework: every class's view-level check must pass, and on routes that
 * fetch an object every class's object-level check must pass too.
 */
module Permissions {
  import opened Wrappers
  import opened Entities

  datatype Permission = AllowAny | IsAuthenticated | IsAdminUser | IsOwnerOrAdmin

  /**
   * `IsOwnerOrAdmin.has_object_permission`: staff, or the user the object
   * belongs to (`obj.user`).
   */
  function OwnerOrAdmin(req: Requester, owner: UserId): (granted: bool)
    ensures granted == (IsStaff(req) || IsOwner(req, owner))
    ensures IsStaff(req) ==> granted
    ensures IsOwner(req, owner) ==> granted
    ensures !IsStaff(req) && !IsOwner(req, owner) ==> !granted
  {
    match req
    case Anonymous => false
    case Authenticated(user, isStaff) => isStaff || user == owner
  }

  /** The view-level check; IsOwnerOrAdmin inherits the permissive default. */
  predicate HasPermission(p: Permission, req: Requester)
  {
    match p
    case AllowAny => true
    case IsAuthenticated => req.Authenticated?
    case IsAdminUser => IsStaff(req)
    case IsOwnerOrAdmin => true
  }

  /** The object-level check; only IsOwnerOrAdmin overrides the permissive default. */
  predicate HasObjectPermission(p: Permission, req: Requester, owner: UserId)
  {
    match p
    case IsOwnerOrAdmin => OwnerOrAdmin(req, owner)
    case _ => true
  }

  /** One class's verdict; `obj` is the owner of the fetched object, if any. */
  predicate Admits(p: Permission, req: Requester, obj: Option<UserId>)
  {
    HasPermission(p, req) && (obj.Some? ==> HasObjectPermission(p, req, obj.value))
  }

  /** Access under a list of permission classes: every class admits. */
  predicate Granted(perms: seq<Permission>, req: Requester, obj: Option<UserId>)
  {
    forall i :: 0 <= i < |perms| ==> Admits(perms[i], req, obj)
  }

  /** Granted for the one- and two-class lists the view sets return. */
  lemma GrantedShort(perms: seq<Permission>, req: Requester, obj: Option<UserId>)
    ensures |perms| == 1 ==> (Granted(perms, req, obj) <==> Admits(perms[0], req, obj))
    ensures |perms| == 2 ==> (Granted(perms, req, obj) <==> Admits(perms[0], req, obj) && Admits(perms[1], req, obj))
  {
  }
}

=== FILE: phone.dfy ===
/**
 * Phone-number validation of core/serializers.py. The phonenumbers library is
 * a parameter: its parse, validity test and E.164 formatting are left
 * uninterpreted.
 */
module Phone {
  import opened Wrappers
  import opened Entities

  /** A parsed number, as the library returns it. */
  datatype PhoneNumber = PhoneNumber(countryCode: nat, nationalNumber: nat)

  /**
   * The three library operations used. `parse` yields None exactly where the
   * library raises NumberParseException.
   */
  datatype PhoneLibrary = PhoneLibrary(
    parse: (string, string) -> Option<PhoneNumber>,
    isValidNumber: PhoneNumber -> bool,
    formatE164: PhoneNumber -> string)

  /** Numbers without a country prefix are read as Egyptian. */
  const DefaultRegion := "EG"

  const FormatError := "Invalid phone number format."
  const InvalidError := "Invalid phone number."
  const AlreadyUsedError := "This phone number is already used."

  /**
   * `check_phone_number`: parse with the default region, reject invalid
   * numbers, and return the E.164 form. The validity error is raised inside the
   * `try` but is not a parse exception, so it is not turned into the format error.
   */
  function CheckPhoneNumber(lib: PhoneLibrary, value: string): (r: Result<string, string>)
    ensures r.Failure? ==> r.error == FormatError || r.error == InvalidError
    ensures r == Failure(FormatError) <==> lib.parse(value, DefaultRegion).None?
    ensures r == Failure(InvalidError) <==>
      lib.parse(value, DefaultRegion).Some? && !lib.isValidNumber(lib.parse(value, DefaultRegion).value)
    ensures r.Success? ==>
      && lib.parse(value, DefaultRegion).Some?
      && lib.isValidNumber(lib.parse(value, DefaultRegion).value)
      && r.value == lib.formatE164(lib.parse(value, DefaultRegion).value)
  {
    match lib.parse(value, DefaultRegion)
    case None => Failure(FormatError)
    case Some(number) =>
      if !lib.isValidNumber(number) then Failure(InvalidError)
      else Success(lib.formatE164(number))
  }

  /** Some user other than `requester` has `phone` as their phone number. */
  predicate UsedByOther(users: map<UserId, User>, requester: UserId, phone: string)
  {
    exists u :: u in users && u != requester && users[u].phoneNumber == phone
  }

  /**
   * `CustomSetUsernameSerializer.validate_new_phone_number` as written: the
   * uniqueness query runs on the raw input, before normalisation.
   */
  function ValidateNewPhoneNumberAsWritten(lib: PhoneLibrary, users: map<UserId, User>, requester: UserId, value: string)
    : (r: Result<string, string>)
    ensures r == Failure(AlreadyUsedError) <==> UsedByOther(users, requester, value)
    ensures !UsedByOther(users, requester, value) ==> r == CheckPhoneNumber(lib, value)
    ensures r.Success? ==> !UsedByOther(users, requester, value)
  {
    if UsedByOther(users, requester, value) then Failure(AlreadyUsedError)
    else CheckPhoneNumber(lib, value)
  }

  /** The check of the number that will be stored: normalise first, then test uniqueness. */
  function ValidateNewPhoneNumber(lib: PhoneLibrary, users: map<UserId, User>, requester: UserId, value: string)
    : (r: Result<string, string>)
    ensures r.Success? ==> CheckPhoneNumber(lib, value) == r && !UsedByOther(users, requester, r.value)
    ensures r == Failure(AlreadyUsedError) <==>
      CheckPhoneNumber(lib, value).Success? && UsedByOther(users, requester, CheckPhoneNumber(lib, value).value)
    ensures CheckPhoneNumber(lib, value).Failure? ==> r == CheckPhoneNumber(lib, value)
    ensures CheckPhoneNumber(lib, value).Success? && !UsedByOther(users, requester, CheckPhoneNumber(lib, value).value) ==>
      r == CheckPhoneNumber(lib, value)
  {
    match CheckPhoneNumber(lib, value)
    case Failure(e) => Failure(e)
    case Success(phone) =>
      if UsedByOther(users, requester, phone) then Failure(AlreadyUsedError) else Success(phone)
  }

  /** A library that reads a national and an international spelling as the same number. */
  function ExampleLibrary(): PhoneLibrary
  {
    PhoneLibrary(
      (value: string, region: string) =>
        if value == "01001234567" || value == "+201001234567" then Some(PhoneNumber(20, 1001234567)) else None,
      (n: PhoneNumber) => true,
      (n: PhoneNumber) => "+201001234567")
  }

  /**
   * The raw-input check admits another user's number typed in national form:
   * the normalised value it returns is already held by user 1, so the save that
   * follows breaks the unique `phone_number` column instead of the validator
   * answering "This phone number is already used.".
   */
  lemma RawCheckAdmitsTakenNumber()
    ensures var users := map[1 := User("+201001234567", false), 2 := User("+201009999999", false)];
      var r := ValidateNewPhoneNumberAsWritten(ExampleLibrary(), users, 2, "01001234567");
      r == Success("+201001234567") && UsedByOther(users, 2, r.value)
  {
    var users := map[1 := User("+201001234567", false), 2 := User("+201009999999", false)];
    assert users[2].phoneNumber != "01001234567";
    assert !UsedByOther(users, 2, "01001234567");
    assert users[1].phoneNumber == "+201001234567";
  }

  /** The corrected check rejects the same request. */
  lemma NormalisedCheckRejectsTakenNumber()
    ensures var users := map[1 := User("+201001234567", false), 2 := User("+201009999999", false)];
      ValidateNewPhoneNumber(ExampleLibrary(), users, 2, "01001234567") == Failure(AlreadyUsedError)
  {
    var users := map[1 := User("+201001234567", false), 2 := User("+201009999999", false)];
    assert users[1].phoneNumber == "+201001234567";
  }
}

=== FILE: serializers.dfy ===
/**
 * The write paths of store/serializers.py: favorite toggling, review upsert,
 * customer image upsert, and product creation and update with their images.
 */
module Serializers {
  import opened Wrappers
  import opened Entities
  import opened Database

  /** The favorite row a user's toggle on a product looks for. */
  function ProductFavorite(user: UserId, product: ProductId): Favorite
  {
    Favorite(user, ProductKind, product)
  }

  /**
   * `ToggleFavoriteProductSerializer.save`: an existing (user, Product, id) row
   * is deleted and None returned; otherwise a row is created and returned.
   */
  function ToggleFavorite(s: Store, user: UserId, product: ProductId): (r: (Store, Option<Favorite>))
    ensures r.0 == s.(favorites := r.0.favorites)
    ensures r.1.None? <==> ProductFavorite(user, product) in s.favorites
    ensures r.1.Some? ==> r.1.value == ProductFavorite(user, product) && r.1.value in r.0.favorites
    ensures r.0.favorites[ProductFavorite(user, product)]
      == if ProductFavorite(user, product) in s.favorites then s.favorites[ProductFavorite(user, product)] - 1 else 1
    ensures forall g :: g != ProductFavorite(user, product) ==> r.0.favorites[g] == s.favorites[g]
    ensures Valid(s) && user in s.users ==> Valid(r.0)
  {
    var f := ProductFavorite(user, product);
    if f in s.favorites then (s.(favorites := s.favorites - multiset{f}), None)
    else (s.(favorites := s.favorites + multiset{f}), Some(f))
  }

  /** Toggling twice restores the favorites when the row was not duplicated. */
  lemma ToggleFavoriteTwice(s: Store, user: UserId, product: ProductId)
    requires s.favorites[ProductFavorite(user, product)] <= 1
    ensures ToggleFavorite(ToggleFavorite(s, user, product).0, user, product).0 == s
  {
    var f := ProductFavorite(user, product);
    var t := ToggleFavorite(ToggleFavorite(s, user, product).0, user, product).0;
    assert t.favorites[f] == s.favorites[f];
    assert t.favorites == s.favorites;
  }

  /** Toggling never duplicates a favorite row that was not already duplicated. */
  lemma ToggleFavoriteKeepsAtMostOne(s: Store, user: UserId, product: ProductId, g: Favorite)
    requires s.favorites[g] <= 1
    ensures ToggleFavorite(s, user, product).0.favorites[g] <= 1
  {
  }

  /**
   * `ReviewSerializer.create`: the product and the requester's Customer are
   * fetched (each raising when missing), then the (customer, product) review is
   * updated or created. An absent description keeps the old one on update and
   * is "" on creation.
   */
  function UpsertReview(s: Store, user: UserId, product: ProductId, rate: int, description: Option<string>)
    : (r: Result<(Store, Review), Error>)
    ensures product !in s.products ==> r == Failure(ProductDoesNotExist)
    ensures product in s.products && user !in s.customerOf ==> r == Failure(CustomerDoesNotExist)
    ensures r.Success? <==> product in s.products && user in s.customerOf
    ensures r.Success? ==> r.value.0 == s.(reviews := r.value.0.reviews)
    ensures r.Success? ==>
      var key := (s.customerOf[user], product);
      && r.value.0.reviews == s.reviews[key := r.value.1]
      && r.value.1.rate == rate
      && (description.Some? ==> r.value.1.description == description.value)
      && (description.None? && key in s.reviews ==> r.value.1.description == s.reviews[key].description)
      && (description.None? && key !in s.reviews ==> r.value.1.description == "")
    ensures r.Success? ==> |r.value.0.reviews| <= |s.reviews| + 1
    ensures r.Success? && Valid(s) ==> Valid(r.value.0)
  {
    if product !in s.products then Failure(ProductDoesNotExist)
    else if user !in s.customerOf then Failure(CustomerDoesNotExist)
    else
      var key := (s.customerOf[user], product);
      var review :=
        if key in s.reviews then Review(rate, description.GetOr(s.reviews[key].description))
        else Review(rate, description.GetOr(""));
      assert key.0 in CustomerIds(s);
      Success((s.(reviews := s.reviews[key := review]), review))
  }

  /**
   * `CustomerImageSerializer.create`: `update_or_create` on the customer key.
   * An existing image row is overwritten; creating one for a customer that does
   * not exist violates the foreign key.
   */
  function UpsertCustomerImage(s: Store, customer: CustomerId, image: Image): (r: Result<Store, Error>)
    ensures r.Failure? <==> customer !in s.customerImages && customer !in CustomerIds(s)
    ensures r.Failure? ==> r.error == IntegrityError
    ensures r.Success? ==> r.value == s.(customerImages := r.value.customerImages)
    ensures r.Success? ==> r.value.customerImages.Keys == s.customerImages.Keys + {customer}
    ensures r.Success? ==> r.value.customerImages[customer] == image
    ensures r.Success? ==> forall c :: c in s.customerImages && c != customer ==> r.value.customerImages[c] == s.customerImages[c]
    ensures r.Success? && Valid(s) ==> Valid(r.value)
  {
    if customer in s.customerImages || customer in CustomerIds(s) then
      Success(s.(customerImages := s.customerImages[customer := image]))
    else Failure(IntegrityError)
  }

  /** The writable fields of a product; None leaves a field as it is. */
  datatype ProductPatch = ProductPatch(
    title: Option<string>, description: Option<string>, price: Option<int>, inventory: Option<int>)

  /** The field assignments of `ModelSerializer.update`. */
  function ApplyPatch(p: Product, patch: ProductPatch): (q: Product)
    ensures q.title == patch.title.GetOr(p.title)
    ensures q.description == patch.description.GetOr(p.description)
    ensures q.price == patch.price.GetOr(p.price)
    ensures q.inventory == patch.inventory.GetOr(p.inventory)
  {
    Product(patch.title.GetOr(p.title), patch.description.GetOr(p.description),
            patch.price.GetOr(p.price), patch.inventory.GetOr(p.inventory))
  }

  /**
   * `ProductSerializer.create`: the product row (with the database-assigned key
   * `pk`) and then one image row per uploaded file, in upload order.
   */
  function CreateProduct(s: Store, pk: ProductId, product: Product, uploads: seq<Image>): (r: Store)
    requires pk !in s.products && pk !in s.productImages
    ensures r == s.(products := r.products, productImages := r.productImages)
    ensures r.products.Keys == s.products.Keys + {pk} && r.products[pk] == product
    ensures forall id :: id in s.products ==> r.products[id] == s.products[id]
    ensures pk in r.productImages && r.productImages[pk] == uploads
    ensures r.productImages.Keys == s.productImages.Keys + {pk}
    ensures forall id :: id in s.productImages ==> r.productImages[id] == s.productImages[id]
    ensures Valid(s) ==> Valid(r)
  {
    s.(products := s.products[pk := product], productImages := s.productImages[pk := uploads])
  }

  /** The image loop of `ProductSerializer.update`: each upload deletes all images, then adds itself. */
  function ReplaceImages(current: seq<Image>, uploads: seq<Image>): seq<Image>
    decreases |uploads|
  {
    if |uploads| == 0 then current else ReplaceImages([uploads[0]], uploads[1..])
  }

  /** After the loop only the last upload remains; with no uploads nothing changes. */
  lemma {:induction false} ReplaceImagesKeepsLast(current: seq<Image>, uploads: seq<Image>)
    decreases |uploads|
    ensures |uploads| == 0 ==> ReplaceImages(current, uploads) == current
    ensures |uploads| > 0 ==> ReplaceImages(current, uploads) == [uploads[|uploads| - 1]]
  {
    if |uploads| > 1 {
      ReplaceImagesKeepsLast([uploads[0]], uploads[1..]);
      assert uploads[1..][|uploads[1..]| - 1] == uploads[|uploads| - 1];
    }
  }

  /** The image rows after an update's uploads: replaced by the last upload, or untouched. */
  function ImagesAfterUpdate(images: map<ProductId, seq<Image>>, id: ProductId, uploads: seq<Image>)
    : (r: map<ProductId, seq<Image>>)
    ensures |uploads| > 0 ==> r == images[id := [uploads[|uploads| - 1]]]
    ensures |uploads| == 0 ==> r == images
  {
    if |uploads| == 0 then images
    else
      var current := if id in images then images[id] else [];
      ReplaceImagesKeepsLast(current, uploads);
      images[id := ReplaceImages(current, uploads)]
  }

  /**
   * `ProductSerializer.update` on an existing product: the uploaded images
   * replace the old ones, then the given fields are assigned.
   */
  function UpdateProduct(s: Store, id: ProductId, patch: ProductPatch, uploads: seq<Image>): (r: Store)
    requires id in s.products
    ensures r == s.(products := r.products, productImages := r.productImages)
    ensures r.products.Keys == s.products.Keys
    ensures r.products[id] == ApplyPatch(s.products[id], patch)
    ensures forall other :: other in s.products && other != id ==> r.products[other] == s.products[other]
    ensures |uploads| > 0 ==> id in r.productImages && r.productImages[id] == [uploads[|uploads| - 1]]
    ensures |uploads| > 0 ==> r.productImages == s.productImages[id := [uploads[|uploads| - 1]]]
    ensures |uploads| == 0 ==> r.productImages == s.productImages
    ensures forall other :: other in s.productImages && other != id ==>
      other in r.productImages && r.productImages[other] == s.productImages[other]
    ensures Valid(s) ==> Valid(r)
  {
    var products := s.products[id := ApplyPatch(s.products[id], patch)];
    assert products.Keys == s.products.Keys;
    s.(products := products, productImages := ImagesAfterUpdate(s.productImages, id, uploads))
  }
}

=== FILE: signals.dfy ===
/**
 * The signal receivers of store/signals/handlers.py (and the identical
 * customer-creation receiver of store/signals.py), called directly.
 */
module Signals {
  import opened Wrappers
  import opened Entities
  import opened CartLines
  import opened Database

  /**
   * post_save on the user model: when the row was just created and the user is
   * not staff, a Customer row with the database-assigned key `pk` is inserted.
   * A user that already has a Customer violates the one-to-one constraint.
   */
  function CreateCustomerOnSave(s: Store, user: UserId, created: bool, pk: CustomerId): (r: Result<Store, Error>)
    requires user in s.users
    requires pk !in CustomerIds(s)
    ensures r.Failure? <==> created && !s.users[user].isStaff && user in s.customerOf
    ensures r.Failure? ==> r.error == IntegrityError
    ensures !created ==> r == Success(s)
    ensures s.users[user].isStaff ==> r == Success(s)
    ensures r.Success? ==> r.value == s.(customerOf := r.value.customerOf)
    ensures r.Success? ==>
      r.value.customerOf.Keys == if created && !s.users[user].isStaff then s.customerOf.Keys + {user} else s.customerOf.Keys
    ensures r.Success? ==> forall u :: u in s.customerOf ==> r.value.customerOf[u] == s.customerOf[u]
    ensures r.Success? && created && !s.users[user].isStaff ==> r.value.customerOf[user] == pk
    ensures r.Success? ==> |r.value.customerOf| <= |s.customerOf| + 1
  {
    if created && !s.users[user].isStaff then
      if user in s.customerOf then Failure(IntegrityError)
      else Success(s.(customerOf := s.customerOf[user := pk]))
    else Success(s)
  }

  /** The hook keeps every integrity constraint, one Customer per user included. */
  lemma CreateCustomerPreservesValid(s: Store, user: UserId, created: bool, pk: CustomerId)
    requires user in s.users && pk !in CustomerIds(s) && Valid(s)
    ensures CreateCustomerOnSave(s, user, created, pk).Success? ==> Valid(CreateCustomerOnSave(s, user, created, pk).value)
  {
    if created && !s.users[user].isStaff && user !in s.customerOf {
      NewCustomerValid(s, user, pk);
    }
  }

  /** Inserting the Customer row keeps every constraint: the key is fresh and the user exists. */
  lemma NewCustomerValid(s: Store, user: UserId, pk: CustomerId)
    requires user in s.users && user !in s.customerOf && pk !in CustomerIds(s) && Valid(s)
    ensures Valid(s.(customerOf := s.customerOf[user := pk]))
  {
    var t := s.(customerOf := s.customerOf[user := pk]);
    assert CustomerIds(s) <= CustomerIds(t) by {
      forall c | c in CustomerIds(s) ensures c in CustomerIds(t) {
        var u :| u in s.customerOf && s.customerOf[u] == c;
        assert t.customerOf[u] == c;
      }
    }
    forall id | id in t.carts ensures CartValid(t.carts[id], CustomerIds(t), t.products.Keys) {
      assert CartValid(s.carts[id], CustomerIds(s), s.products.Keys);
    }
    forall u, v | u in t.customerOf && v in t.customerOf && u != v ensures t.customerOf[u] != t.customerOf[v] {
      if u != user && v != user {
        assert s.customerOf[u] != s.customerOf[v];
      } else if u == user {
        assert s.customerOf[v] in CustomerIds(s);
      } else {
        assert s.customerOf[u] in CustomerIds(s);
      }
    }
  }

  /** The logging-in user's Customer's smallest-key cart: `Cart.objects.filter(customer=customer).first()`. */
  function CustomerCart(s: Store, user: UserId): Option<CartId>
    requires user in s.customerOf
  {
    FirstCart(s.carts, Some(s.customerOf[user]))
  }

  /** Outcome of the two-cart branch: quantities summed into `cid`, the session cart `sid` deleted. */
  ghost predicate Merged(before: map<CartId, Cart>, cid: CartId, sid: CartId, after: map<CartId, Cart>)
    requires cid in before && sid in before
  {
    && after.Keys == before.Keys - {sid}
    && (cid != sid ==>
          && after[cid].customer == before[cid].customer
          && (forall p :: Quantity(after[cid].lines, p) == Quantity(before[cid].lines, p) + Quantity(before[sid].lines, p)))
    && (forall id :: id in before && id != cid && id != sid ==> after[id] == before[id])
  }

  /** Outcome of the session-cart-only branch: that cart now belongs to `customer`, lines untouched. */
  ghost predicate Rebound(before: map<CartId, Cart>, sid: CartId, customer: CustomerId, after: map<CartId, Cart>)
    requires sid in before
  {
    && after.Keys == before.Keys
    && after[sid].customer == Some(customer)
    && after[sid].lines == before[sid].lines
    && (forall id :: id in before && id != sid ==> after[id] == before[id])
  }

  /**
   * The login hook exactly as written: `Customer.objects.get(user=user)` raises
   * when the user has no Customer; otherwise the session cart is merged into,
   * or handed to, the customer's cart and the session's cart id is removed.
   */
  function LoginAsWritten(s: Store, session: Session, user: UserId): (r: Result<(Store, Session), Error>)
    ensures r.Failure? <==> user !in s.customerOf
    ensures r.Failure? ==> r.error == CustomerDoesNotExist
    ensures r.Success? ==> r.value.1.cartId.None?
    ensures r.Success? ==> r.value.0 == s.(carts := r.value.0.carts)
    ensures r.Success? && SessionCart(s.carts, session).None? ==> r.value.0 == s
    ensures r.Success? && CustomerCart(s, user).Some? && SessionCart(s.carts, session).Some? ==>
      Merged(s.carts, CustomerCart(s, user).value, SessionCart(s.carts, session).value, r.value.0.carts)
    ensures r.Success? && CustomerCart(s, user).None? && SessionCart(s.carts, session).Some? ==>
      Rebound(s.carts, SessionCart(s.carts, session).value, s.customerOf[user], r.value.0.carts)
  {
    if user !in s.customerOf then Failure(CustomerDoesNotExist)
    else
      var customer := s.customerOf[user];
      var fromCustomer := CustomerCart(s, user);
      var fromSession := SessionCart(s.carts, session);
      var carts :=
        if fromCustomer.Some? && fromSession.Some? then
          var cid := fromCustomer.value;
          var sid := fromSession.value;
          var merged := s.carts[cid].(lines := MergeLines(s.carts[cid].lines, s.carts[sid].lines));
          s.carts[cid := merged] - {sid}
        else if fromSession.Some? then
          var sid := fromSession.value;
          s.carts[sid := s.carts[sid].(customer := Some(customer))]
        else s.carts;
      Success((s.(carts := carts), Session(None)))
  }

  /**
   * The login hook with the session cart merged only when it is a different
   * cart from the customer's; when the session still names the customer's own
   * cart, only the session key is removed.
   */
  function Login(s: Store, session: Session, user: UserId): (r: Result<(Store, Session), Error>)
    ensures r.Failure? <==> user !in s.customerOf
    ensures r.Failure? ==> r.error == CustomerDoesNotExist
    ensures r.Success? ==> r.value.1.cartId.None?
    ensures r.Success? ==> r.value.0 == s.(carts := r.value.0.carts)
    ensures user in s.customerOf && !(CustomerCart(s, user).Some? && SessionCart(s.carts, session) == CustomerCart(s, user)) ==>
      r == LoginAsWritten(s, session, user)
    ensures user in s.customerOf && CustomerCart(s, user).Some? && SessionCart(s.carts, session) == CustomerCart(s, user) ==>
      r == Success((s, Session(None)))
    ensures r.Success? && CustomerCart(s, user).Some? ==>
      var cid := CustomerCart(s, user).value;
      && cid in r.value.0.carts
      && forall p :: Quantity(s.carts[cid].lines, p) <= Quantity(r.value.0.carts[cid].lines, p)
  {
    if user in s.customerOf && CustomerCart(s, user).Some? && SessionCart(s.carts, session) == CustomerCart(s, user) then
      Success((s, Session(None)))
    else LoginAsWritten(s, session, user)
  }

  /** Login keeps every integrity constraint; in particular the merged cart still has one line per product. */
  lemma LoginPreservesValid(s: Store, session: Session, user: UserId)
    requires Valid(s)
    ensures Login(s, session, user).Success? ==> Valid(Login(s, session, user).value.0)
  {
    var r := Login(s, session, user);
    if r.Success? && r.value.0 != s {
      var customer := s.customerOf[user];
      assert customer in CustomerIds(s);
      var carts := r.value.0.carts;
      var sid := SessionCart(s.carts, session).value;
      forall id | id in carts ensures CartValid(carts[id], CustomerIds(s), s.products.Keys) {
        assert CartValid(s.carts[id], CustomerIds(s), s.products.Keys);
        match CustomerCart(s, user)
        case Some(cid) =>
          if id == cid {
            assert CartValid(s.carts[sid], CustomerIds(s), s.products.Keys);
            assert carts[cid].lines == MergeLines(s.carts[cid].lines, s.carts[sid].lines);
          }
        case None =>
      }
    }
  }

  /** The hook as written also keeps every integrity constraint, the self-merge case included. */
  lemma LoginAsWrittenPreservesValid(s: Store, session: Session, user: UserId)
    requires Valid(s)
    ensures LoginAsWritten(s, session, user).Success? ==> Valid(LoginAsWritten(s, session, user).value.0)
  {
    var r := LoginAsWritten(s, session, user);
    if r.Success? && r.value.0 != s {
      var customer := s.customerOf[user];
      assert customer in CustomerIds(s);
      var carts := r.value.0.carts;
      var sid := SessionCart(s.carts, session).value;
      forall id | id in carts ensures CartValid(carts[id], CustomerIds(s), s.products.Keys) {
        assert CartValid(s.carts[id], CustomerIds(s), s.products.Keys);
        match CustomerCart(s, user)
        case Some(cid) =>
          if id == cid {
            assert CartValid(s.carts[sid], CustomerIds(s), s.products.Keys);
            assert carts[cid].lines == MergeLines(s.carts[cid].lines, s.carts[sid].lines);
          }
        case None =>
      }
    }
  }

  /** The hook as written deletes the customer's own cart when the session still names it. */
  lemma LoginAsWrittenDeletesOwnCart(s: Store, session: Session, user: UserId)
    requires user in s.customerOf && CustomerCart(s, user).Some?
    requires session.cartId == CustomerCart(s, user)
    ensures LoginAsWritten(s, session, user).Success?
    ensures CustomerCart(s, user).value !in LoginAsWritten(s, session, user).value.0.carts
  {
  }
}

=== FILE: tasks.dfy ===
/** The periodic jobs of store/tasks.py. */
module Tasks {
  import opened Entities
  import opened Database

  /** `Cart.objects.annotate(items_count=Count("cart_items")).filter(items_count=0).delete()`. */
  function DeleteEmptyCarts(s: Store): (r: Store)
    ensures r == s.(carts := r.carts)
    ensures r.carts.Keys <= s.carts.Keys
    ensures forall id :: id in r.carts ==> |r.carts[id].lines| > 0 && r.carts[id] == s.carts[id]
    ensures forall id :: id in s.carts && |s.carts[id].lines| == 0 ==> id !in r.carts
    ensures forall id :: id in s.carts && |s.carts[id].lines| > 0 ==> id in r.carts && r.carts[id] == s.carts[id]
    ensures Valid(s) ==> Valid(r)
  {
    s.(carts := map id | id in s.carts && |s.carts[id].lines| > 0 :: s.carts[id])
  }

  /** Reaping twice deletes nothing more than reaping once. */
  lemma DeleteEmptyCartsIdempotent(s: Store)
    ensures DeleteEmptyCarts(DeleteEmptyCarts(s)) == DeleteEmptyCarts(s)
  {
    var once := DeleteEmptyCarts(s);
    assert DeleteEmptyCarts(once).carts == once.carts;
  }

  /** `Product.objects.update(price=F('price') + 1)`. */
  function UpdateProductsPrices(s: Store): (r: Store)
    ensures r == s.(products := r.products)
    ensures r.products.Keys == s.products.Keys
    ensures forall id :: id in s.products ==> r.products[id].price == s.products[id].price + 1
    ensures forall id :: id in s.products ==> r.products[id] == s.products[id].(price := r.products[id].price)
    ensures forall a, b :: a in s.products && b in s.products ==>
      (s.products[a].price <= s.products[b].price <==> r.products[a].price <= r.products[b].price)
    ensures Valid(s) ==> Valid(r)
  {
    s.(products := map id | id in s.products :: s.products[id].(price := s.products[id].price + 1))
  }
}

=== FILE: views.dfy ===
/**
 * The decision tables and query scoping of store/views.py: the permission
 * lists of the customer, product and order view sets, the product cache
 * timeouts, the order list scoping and the cart lookup of the cart-item list.
 */
module Views {
  import opened Wrappers
  import opened Entities
  import opened Database
  import opened Permissions

  const CustomerDetailActions: set<string> := {"retrieve", "update", "partial_update", "destroy"}
  const ProductWriteActions: set<string> := {"create", "update", "partial_update", "destroy"}
  const OrderAuthenticatedActions: set<string> := {"create_order", "options"}

  /** `CustomerViewSet.get_permissions`. */
  function CustomerPermissions(action: string): seq<Permission>
  {
    if action == "list" then [IsAuthenticated, IsAdminUser]
    else if action in CustomerDetailActions then [IsAuthenticated, IsOwnerOrAdmin]
    else [IsAuthenticated]
  }

  /** Who may use a customer endpoint; `obj` is the user of the fetched Customer on detail routes. */
  function CustomerAccess(action: string, req: Requester, obj: Option<UserId>): (granted: bool)
    ensures action == "list" ==> (granted <==> IsStaff(req))
    ensures action in CustomerDetailActions && obj.Some? ==> (granted <==> IsStaff(req) || IsOwner(req, obj.value))
    ensures action != "list" && action !in CustomerDetailActions ==> (granted <==> req.Authenticated?)
    ensures granted ==> req.Authenticated?
  {
    var perms := CustomerPermissions(action);
    GrantedShort(perms, req, obj);
    Granted(perms, req, obj)
  }

  /** `ProductViewSet.get_permissions`. */
  function ProductPermissions(action: string): seq<Permission>
  {
    if action in ProductWriteActions then [IsAdminUser]
    else if action == "favorite" then [IsAuthenticated]
    else [AllowAny]
  }

  /** Who may use a product endpoint; no product permission looks at the object. */
  function ProductAccess(action: string, req: Requester, obj: Option<UserId>): (granted: bool)
    ensures action in ProductWriteActions ==> (granted <==> IsStaff(req))
    ensures action == "favorite" ==> (granted <==> req.Authenticated?)
    ensures action !in ProductWriteActions && action != "favorite" ==> granted
    ensures granted == Granted(ProductPermissions(action), req, None)
  {
    var perms := ProductPermissions(action);
    GrantedShort(perms, req, obj);
    GrantedShort(perms, req, None);
    Granted(perms, req, obj)
  }

  const DefaultCacheTimeout: nat := 60 * 15

  /** The value `ProductViewSet.get_cache_response_timeout` returns, in seconds. */
  function CacheTimeout(viewMethod: string): (seconds: nat)
    ensures seconds == 0 <==> viewMethod == "favorite"
    ensures viewMethod == "list" ==> seconds == 5 * 60
    ensures viewMethod == "retrieve" ==> seconds == 60 * 60
    ensures viewMethod !in {"list", "retrieve", "favorite"} ==> seconds == DefaultCacheTimeout
    ensures seconds <= 60 * 60 && seconds % 60 == 0
  {
    if viewMethod == "list" then 60 * 5
    else if viewMethod == "retrieve" then 60 * 60
    else if viewMethod == "favorite" then 0
    else DefaultCacheTimeout
  }

  /** `OrderViewSet.get_permissions`: the HTTP method is inspected before the action. */
  function OrderPermissions(httpMethod: string, action: string): seq<Permission>
  {
    if httpMethod == "OPTIONS" then [AllowAny]
    else if action in OrderAuthenticatedActions then [IsAuthenticated]
    else if action == "list" then [IsOwnerOrAdmin]
    else [IsAdminUser]
  }

  /**
   * Who passes the order view set's permission check. No order route fetches an
   * object under IsOwnerOrAdmin, so only view-level checks apply; in particular
   * the list route admits every requester and relies on `OrderQueryset`.
   */
  function OrderAccess(httpMethod: string, action: string, req: Requester): (granted: bool)
    ensures httpMethod == "OPTIONS" ==> granted
    ensures httpMethod != "OPTIONS" && action in OrderAuthenticatedActions ==> (granted <==> req.Authenticated?)
    ensures httpMethod != "OPTIONS" && action == "list" ==> granted
    ensures httpMethod != "OPTIONS" && action !in OrderAuthenticatedActions && action != "list" ==> (granted <==> IsStaff(req))
  {
    var perms := OrderPermissions(httpMethod, action);
    GrantedShort(perms, req, None);
    Granted(perms, req, None)
  }

  /**
   * `OrderViewSet.get_queryset`: staff see every order; anyone else sees the
   * orders of their own Customer, and `Customer.objects.get` raises when they
   * have none (the anonymous user included).
   */
  function OrderQueryset(s: Store, req: Requester): (r: Result<set<OrderId>, Error>)
    ensures IsStaff(req) ==> r == Success(s.orders.Keys)
    ensures !IsStaff(req) ==> (r.Failure? <==> !(req.Authenticated? && req.user in s.customerOf))
    ensures r.Failure? ==> r.error == CustomerDoesNotExist
    ensures r.Success? ==> r.value <= s.orders.Keys
    ensures r.Success? && !IsStaff(req) ==> req.Authenticated? && req.user in s.customerOf
    ensures r.Success? && !IsStaff(req) && req.Authenticated? && req.user in s.customerOf ==>
      forall o :: o in s.orders ==> (o in r.value <==> s.orders[o].customer == s.customerOf[req.user])
  {
    if IsStaff(req) then Success(s.orders.Keys)
    else if req.Authenticated? && req.user in s.customerOf then
      var customer := s.customerOf[req.user];
      Success(set o | o in s.orders && s.orders[o].customer == customer)
    else Failure(CustomerDoesNotExist)
  }

  /**
   * `CartItemViewSet.get_queryset`'s cart lookup as written. A logged-in user
   * without a Customer row filters on `customer=None`, which the ORM reads as
   * `customer IS NULL`: they get the smallest-key cart that has no customer.
   */
  function ResolveCartAsWritten(s: Store, req: Requester, session: Session): (r: Option<CartId>)
    ensures r.Some? ==> r.value in s.carts
    ensures req.Authenticated? && req.user in s.customerOf ==>
      (r.None? <==> CartsOwnedBy(s.carts, Some(s.customerOf[req.user])) == {})
    ensures req.Authenticated? && req.user in s.customerOf && r.Some? ==>
      s.carts[r.value].customer == Some(s.customerOf[req.user])
    ensures req.Authenticated? && req.user !in s.customerOf ==>
      (r.None? <==> CartsOwnedBy(s.carts, None) == {})
    ensures req.Authenticated? && req.user !in s.customerOf && r.Some? ==> s.carts[r.value].customer.None?
    ensures req.Anonymous? ==> (r.Some? <==> session.cartId.Some? && session.cartId.value in s.carts)
    ensures req.Anonymous? && r.Some? ==> r == session.cartId
    ensures req.Authenticated? && r.Some? ==>
      forall id :: id in s.carts && s.carts[id].customer == s.carts[r.value].customer ==> r.value <= id
  {
    match req
    case Authenticated(user, _) =>
      var customer := if user in s.customerOf then Some(s.customerOf[user]) else None;
      var r := FirstCart(s.carts, customer);
      assert r.None? <==> CartsOwnedBy(s.carts, customer) == {} by {
        if r.Some? { assert r.value in CartsOwnedBy(s.carts, customer); }
      }
      r
    case Anonymous => SessionCart(s.carts, session)
  }

  /** A logged-in user without a Customer is shown an anonymous cart whenever one exists. */
  lemma CustomerlessUserGetsAnonymousCart(s: Store, req: Requester, session: Session, anonymous: CartId)
    requires req.Authenticated? && req.user !in s.customerOf
    requires anonymous in s.carts && s.carts[anonymous].customer.None?
    ensures ResolveCartAsWritten(s, req, session).Some?
    ensures s.carts[ResolveCartAsWritten(s, req, session).value].customer.None?
  {
    assert anonymous in CartsOwnedBy(s.carts, None);
  }

  /** The cart lookup resolving only to a cart the requester owns: no Customer, no cart. */
  function ResolveCart(s: Store, req: Requester, session: Session): (r: Option<CartId>)
    ensures r.Some? ==> r.value in s.carts
    ensures req.Authenticated? && r.Some? ==>
      req.user in s.customerOf && s.carts[r.value].customer == Some(s.customerOf[req.user])
    ensures req.Anonymous? && r.Some? ==> r == session.cartId
    ensures req.Anonymous? || req.user in s.customerOf ==> r == ResolveCartAsWritten(s, req, session)
  {
    if req.Authenticated? && req.user !in s.customerOf then None
    else ResolveCartAsWritten(s, req, session)
  }

  /**
   * `CartItemViewSet.get_queryset` as written: the lines of the cart the
   * as-written lookup resolves, or none. A logged-in user without a Customer
   * is listed the smallest-key customer-less cart.
   */
  function ListCartItems(s: Store, req: Requester, session: Session): (items: seq<Line>)
    ensures req.Authenticated? ==>
      var owned := CartsOwnedBy(s.carts, if req.user in s.customerOf then Some(s.customerOf[req.user]) else None);
      items == if owned == {} then [] else s.carts[Min(owned)].lines
    ensures req.Anonymous? ==>
      items == if session.cartId.Some? && session.cartId.value in s.carts then s.carts[session.cartId.value].lines else []
  {
    match ResolveCartAsWritten(s, req, session)
    case Some(id) =>
      assert req.Authenticated? ==> id == Min(CartsOwnedBy(s.carts, s.carts[id].customer));
      s.carts[id].lines
    case None => []
  }

  /**
   * The cart-item list over the corrected lookup: a logged-in user without a
   * Customer is listed nothing; every other requester gets the as-written list.
   */
  function ListOwnCartItems(s: Store, req: Requester, session: Session): (items: seq<Line>)
    ensures req.Authenticated? && req.user !in s.customerOf ==> items == []
    ensures req.Anonymous? || req.user in s.customerOf ==> items == ListCartItems(s, req, session)
    ensures req.Authenticated? && items != [] ==>
      exists id :: id in s.carts && req.user in s.customerOf && s.carts[id].customer == Some(s.customerOf[req.user])
        && s.carts[id].lines == items
  {
    match ResolveCart(s, req, session)
    case Some(id) => s.carts[id].lines
    case None => []
  }
}

=== FILE: wrappers.dfy ===
/** Option and Result, the two shapes the store operations use for absent rows and raised errors. */
module Wrappers {

  /** A value that may be absent: a nullable column or a `.first()` that found nothing. */
  datatype Option<+T> = None | Some(value: T) {

    /** The carried value, or `default` when absent (Python's `dict.get(key, default)`). */
    function GetOr(default: T): T
    {
      match this
      case Some(v) => v
      case None => default
    }
  }

  /** Either a successful value or the error the source raises. */
  datatype Result<+T, +E> = Success(value: T) | Failure(error: E)
}
